=== FILE: README.md ===
# gRPC example handlers in Dafny

This project models the server-side handlers of two small gRPC services. It
covers one handler for each RPC shape:

- calculator service: `Sum` (unary), `PrimeNumberDecomposition` (server
  streaming), `ComputeAverage` (client streaming), `FindMaximum`
  (bidirectional streaming);
- greet service: `Greet` (unary), `GreetManyTimes` (server streaming),
  `LongGreet` (client streaming), `GreetEveryone` (bidirectional streaming).

Streams are modelled sequentially, without concurrency:

- An inbound stream is the finite list of results the handler's `Recv` calls
  return: `Msg(x)`, `EOF` or `Err(e)` (`Rpc.Recv`).
- A handler run (`Rpc.Run`) is the list of messages handed to `Send` or
  `SendAndClose`, in order, plus how the handler ends (`Rpc.Outcome`):
  - `Done`: it returned nil.
  - `Failed(e)`: it returned `e`, or stopped in `log.Fatalf` on `e`.
  - `Blocked`: the inbound results ran out before `EOF` or an error, so the
    handler would still be waiting in `Recv`.
- A failing `Send` is a parameter, `Rpc.SendFault`: either no call fails, or
  call number k fails with error e. A failing `SendAndClose` is an
  `Option<Error>` parameter.
- `Rpc.Received` gives the requests received before the first non-message
  result. `Rpc.Ending` gives how a loop that returns at `EOF` ends.
  `Rpc.WithSendFault` cuts a fault-free run short at the failing `Send`.
  Each client-streaming and bidirectional-streaming handler (`ComputeAverage`,
  `FindMaximum`, `LongGreet`, `GreetEveryone`) is proved equal to these
  reference definitions, applied to an independent description of what it
  sends. The server-streaming handlers (`PrimeNumberDecomposition`,
  `GreetManyTimes`) read no inbound stream; their contracts describe what
  they send directly.

Go's fixed-width integers are written out (`GoNum`):

- `int32` and `int64` are subset types of `int`.
- `int32` addition wraps modulo 2^32 (`Wrap32`).
- In `PrimeNumberDecomposition`, `number` and `divisor` are `int64`. The loop
  invariant `divisor <= number` shows they never overflow.
- Go's `%` and `/` truncate toward zero. They are applied only to positive
  operands here, where they agree with Dafny's.

Three behaviours of the handlers that the model keeps as the code has them:

- `ComputeAverage` on an empty stream replies with sum 0 over count 0, a
  float NaN, and reports no error (`ComputeAverageEmpty`).
- `ComputeAverage` and `LongGreet` reply with a single `SendAndClose` call,
  which sends the reply and closes the stream at once; its error, if any, is
  what the handler returns.
- A failed `Recv` goes to `log.Fatalf`, which stops the process; the model
  ends such a run `Failed` with that error.

## Model

| member | source | states |
|---|---|---|
| Rpc.ReceivedThenEnding | src/greet/greet_server/server.go:91-100 | the requests handled are the longest run of messages at the head of the stream; the loop blocks when no other result follows, returns nil at EOF and returns the error of a failed Recv |
| GoNum.Add32 | src/calculator/calculator_server/server.go:25 | int32 addition: the exact sum when it fits in int32; otherwise the sum shifted by 2^32 into range (two's-complement wrap) |
| GoNum.WrapAddLeft | src/calculator/calculator_server/server.go:90 | adding to an already wrapped int32 sum gives the same result as wrapping the exact sum once |
| GoNum.Itoa | src/greet/greet_server/server.go:43 | strconv.Itoa of a non-negative number: a non-empty string of decimal digits with no leading zero; it has one digit exactly for 0..9 |
| GoNum.AtoiItoa | src/greet/greet_server/server.go:43 | the decimal form reads back to the number, so Itoa is injective |
| Calculator.Sum | src/calculator/calculator_server/server.go:20-32 | the response is IntA + IntB when that fits in int32, and always agrees with it modulo 2^32 |
| Calculator.SumCancels | src/calculator/calculator_server/server.go:25 | wrapped sum is commutative; subtracting IntB from it (wrapped) recovers IntA |
| Calculator.PrimeNumberDecomposition | src/calculator/calculator_server/server.go:41-67 | nothing is sent iff the number is <= 1; otherwise the factors multiply to the number; every factor is prime; factors are non-decreasing; the loop terminates with no int64 overflow; the handler returns nil |
| Calculator.DivisorIsPrime | src/calculator/calculator_server/server.go:53-57 | a divisor found when no smaller number >= 2 divides the remaining number is prime |
| Calculator.QuotientKeepsNoDivisorBelow | src/calculator/calculator_server/server.go:58 | after dividing out the divisor, no smaller number >= 2 divides the quotient; a quotient above 1 is at least the divisor |
| Calculator.ExtendFactors | src/calculator/calculator_server/server.go:55-58 | moving a factor from the number into the sent list keeps (product of sent) * number fixed and strictly shrinks number |
| Rpc.CloseOutcome | src/calculator/calculator_server/server.go:82-84 | the handler returns SendAndClose's error exactly when it has one, and never stays blocked |
| Rpc.WithSendFault | src/calculator/calculator_server/server.go:114-120 | a failing Send ends the run right after that call, with exactly the calls up to it sent and its error returned; a Send index beyond the run changes nothing; the result is always a prefix of the fault-free run |
| Calculator.ComputeAverageFrom | src/calculator/calculator_server/server.go:75-92 | at most one reply; a reply is sent exactly when the stream ends with EOF; its count is the number of messages received |
| Calculator.ComputeAverage | src/calculator/calculator_server/server.go:69-93 | starting from sum 0 and count 0: at most one reply, sent exactly when the stream ends with EOF, holding the int32 wrap of the exact sum of the received numbers and their count |
| Calculator.ComputeAverageFromReply | src/calculator/calculator_server/server.go:72-92 | from any running state, the reply holds the wrapped exact sum of the received numbers and their count; no reply on error or blocking; outcome is SendAndClose's result at EOF, the stream's ending otherwise |
| Calculator.SumStep | src/calculator/calculator_server/server.go:90 | adding one more number to the wrapped running sum keeps it the wrap of the exact total |
| Calculator.ComputeAverageReply | src/calculator/calculator_server/server.go:69-93 | the whole handler (sum and count start at 0): one reply at EOF, holding int32(sum of inputs) and the number of inputs |
| Calculator.ComputeAverageExample | src/calculator/calculator_server/server.go:72-91 | 3, 5, 9, 54, 23 then EOF give the single reply sum 94, count 5 (average 18.8) |
| Calculator.ComputeAverageEmpty | src/calculator/calculator_server/server.go:72-85 | an immediately ended stream still gets one reply, sum 0 over count 0 |
| Calculator.ComputeAverageOverflows | src/calculator/calculator_server/server.go:90 | 2147483647 and 1 give the int32 sum -2147483648 although their exact sum is 2147483648 |
| Calculator.ComputeAverageWideFrom | src/calculator/calculator_server/server.go:75-92 | corrected loop with an int64 sum: a reply exactly at EOF, at most one |
| Calculator.ComputeAverageWide | src/calculator/calculator_server/server.go:69-93 | the corrected handler from sum 0 and count 0: at most one reply, exactly at EOF, whose count is the number of messages received |
| Calculator.ComputeAverageWideFromExact | src/calculator/calculator_server/server.go:72-91 | with an int64 sum, no partial sum of up to 2^32 int32 numbers overflows, so the reply holds the exact sum and the count |
| Calculator.MathSumBounds | src/calculator/calculator_server/server.go:88-91 | the exact sum of n int32 numbers lies between n times the int32 minimum and n times the int32 maximum |
| Calculator.ComputeAverageWideExact | src/calculator/calculator_server/server.go:72-91 | the corrected handler replies with the exact sum for streams of up to 2^32 numbers, e.g. 2147483648 for 2147483647 and 1; that sum lies within the count times the int32 bounds, so for a non-empty stream sum/count lies within the int32 range |
| Calculator.Records | src/calculator/calculator_server/server.go:110-116 | the values a running maximum announces are each above the starting best, strictly increasing, and taken from the input |
| Calculator.RecordsExactly | src/calculator/calculator_server/server.go:110-116 | a value is announced iff it occurs at a position where it beats the starting best and every earlier value |
| Calculator.RecordsComplete | src/calculator/calculator_server/server.go:110-116 | every position where a value beats the starting best and all earlier values has its value announced |
| Calculator.RecordsSound | src/calculator/calculator_server/server.go:110-116 | every announced value occurs at a position where it beats the starting best and all earlier values |
| Calculator.RecordsEmpty | src/calculator/calculator_server/server.go:98-116 | nothing is announced iff no value beats the starting best |
| Calculator.RecordsLastIsMax | src/calculator/calculator_server/server.go:98-116 | when something is announced, no input exceeds the last announced value |
| Calculator.FindMaximumFrom | src/calculator/calculator_server/server.go:100-123 | no more sends than messages received; every value sent exceeds the best-so-far |
| Calculator.FindMaximum | src/calculator/calculator_server/server.go:95-124 | starting from `maxNumber` 0: no more sends than messages received, and every value sent is positive |
| Calculator.FindMaximumFromSends | src/calculator/calculator_server/server.go:100-123 | the run is the running-maximum announcements of the received values with the stream's ending, cut short after a failing Send with its error |
| Calculator.FindMaximumSends | src/calculator/calculator_server/server.go:95-124 | from best 0, the values sent are positive, strictly increasing, received values; a failing Send stops the handler with its error |
| Calculator.FindMaximumAtEnd | src/calculator/calculator_server/server.go:98-116 | at EOF with no failed Send: returns nil; nothing sent iff every input <= 0; otherwise the last value sent is the maximum input |
| Calculator.FindMaximumExample | src/calculator/calculator_server/server.go:98-116 | 1, 5, 3, 6, 2, 20 then EOF give the replies 1, 5, 6, 20 and nil |
| Greet.FirstName | src/greet/greet_server/server.go:28 | the getter chain gives the greeting's first name, or "" when the request has no greeting |
| Greet.Greet | src/greet/greet_server/server.go:25-36 | the result is "Hello " (with a space) followed by exactly the first name |
| Greet.GreetRoundTrip | src/greet/greet_server/server.go:29 | the name can be read back off the greeting, so two requests get the same greeting iff they carry the same name |
| Greet.GreetManyTimes | src/greet/greet_server/server.go:39-53 | exactly 10 sends in order; send i (0..9) is the unary greeting + " number " + decimal(i); the handler returns nil |
| Greet.ManyTimesLinesDistinct | src/greet/greet_server/server.go:42-43 | responses with different indices differ |
| Greet.LongGreetPiece | src/greet/greet_server/server.go:78 | a piece is six characters longer than the name |
| Greet.LongGreetPieceParts | src/greet/greet_server/server.go:78 | a piece is "Hello", then the name, then "!"; two pieces are equal exactly when their names are |
| Greet.LongGreetFrom | src/greet/greet_server/server.go:63-79 | at most one reply; a reply exactly at EOF; it extends what was already accumulated |
| Greet.LongGreet | src/greet/greet_server/server.go:57-80 | starting from the empty result: at most one reply, sent exactly at EOF, and it is the in-order join of the pieces of all received requests |
| Greet.LongGreetAppendOnly | src/greet/greet_server/server.go:78 | one more request appends its "Hello" + name + "!" piece, so the earlier result is a prefix of the later one |
| Greet.JoinPiecesCons | src/greet/greet_server/server.go:78 | joining pieces in order is the same when the first piece is put in front of the others' join |
| Greet.LongGreetFromReply | src/greet/greet_server/server.go:63-79 | from any accumulated result, the single reply at EOF is that result followed by the pieces of all received requests; outcome is SendAndClose's result at EOF, the stream's ending otherwise |
| Greet.LongGreetReply | src/greet/greet_server/server.go:57-80 | the whole handler: one reply at EOF, the in-order join of the pieces of all received requests; none on error or blocking |
| Greet.LongGreetEmpty | src/greet/greet_server/server.go:61-72 | an immediately ended stream is answered with the empty string |
| Greet.LongGreetExample | src/greet/greet_server/server.go:57-80 | the client's Chris, Sieg, Luna, Liv, Bob then EOF give "HelloChris!HelloSieg!HelloLuna!HelloLiv!HelloBob!" and nil |
| Greet.EveryoneLine | src/greet/greet_server/server.go:102 | a response is "Hello" + name + "! ": seven characters more than the name |
| Greet.GreetEveryone | src/greet/greet_server/server.go:91-111 | never more sends than requests received |
| Greet.GreetEveryoneSends | src/greet/greet_server/server.go:91-111 | the run is one "Hello" + name + "! " per received request, in order, with the stream's ending (nil at EOF, nothing extra), cut short after a failing Send with its error |
| Greet.GreetEveryoneExample | src/greet/greet_server/server.go:91-111 | the client's Chris, Sieg, Luna, Liv, Bob then EOF give five responses in order and nil |

## Findings

| source | as written | input that shows it | evidently intended | confidence | as-written member | corrected member |
|---|---|---|---|---|---|---|
| src/calculator/calculator_server/server.go:72-90 | the running sum of `ComputeAverage` is `int32` and wraps | numbers 2147483647 and 1: sum -2147483648, average -1073741824 | the exact sum, e.g. an `int64` accumulator, giving average 1073741824 | medium, not executed | Calculator.ComputeAverageOverflows | Calculator.ComputeAverageWideExact |

## Left out

- Both clients and both `main` functions: dialling, listening, server registration and printing are network and process setup with no handler logic.
- The clients' concurrency: the bidirectional-streaming clients run a sending goroutine (which ends with `stream.CloseSend()`) and a receiving goroutine, joined by closing the `waitc` channel; the client-streaming clients end with `stream.CloseAndRecv()`. The handlers see only their sequential `Recv`/`Send` view, so the interleaving is not modelled.
- The generated protobuf types and stream objects: replaced by `Greeting`/`GreetRequest`, `int32`/`int64` payloads, the `Recv` list and the `Run` record. The generated `.pb.go` code that declares the calculator messages is not part of this model, so their field widths (`int32` for `Sum` and the averaged and maximised numbers, `int64` for the factorised number) are inferred from the handlers. The `int32` and `int64` widths of `ComputeAverage`, `FindMaximum` and `PrimeNumberDecomposition` follow from the handlers' own declarations (`sum := int32(0)`, `maxNumber := int32(0)`, `divisor := int64(2)`); the `int32` of `Sum` is assumed, since `result := intA + intB` compiles at any integer width.
- The float division `float64(sum) / float64(count)` of `ComputeAverage`: floating point; the reply is modelled by its two integer operands.
- `fmt.Printf`, `log.Printf` and the process exit of `log.Fatalf`: output and process termination; `log.Fatalf` is modelled as the run ending `Failed`.
- `time.Sleep` pacing, one second per message in `GreetManyTimes` and in the clients' sending loops: timing only.
- Calculator.PrimeNumberDecomposition: states product, primality and order of the factors but not that they are the unique prime factorisation (e.g. that 12 yields exactly 2, 2, 3), which would need the uniqueness of prime factorisation.
- Calculator.ComputeAverageFrom: the count is an unbounded natural; on 64-bit platforms Go's `int` count would only overflow after 2^63 messages.
- GoNum.Itoa: covers non-negative numbers only; the handlers call it only with 0..9.
- Greet.GreetManyTimes: `Send` errors are ignored by the handler, so the run lists the ten calls made, not which were delivered.

=== FILE: calculator.dfy ===
/**
  The handlers of the calculator service (src/calculator/calculator_server/server.go):
  a unary sum, a server-streaming prime factorisation, a client-streaming
  average and a bidirectional running maximum.
 */
module Calculator {
  import opened Rpc
  import opened GoNum
  import opened Primes

  // ---------------------------------------------------------------- Sum

  /** `Sum`: the response holds `IntA + IntB` computed in `int32`. */
  function Sum(intA: Int32, intB: Int32): (result: Int32)
    ensures INT32_MIN <= intA + intB <= INT32_MAX ==> result == intA + intB
    ensures Congruent32(result, intA + intB)
  {
    Add32(intA, intB)
  }

  /** Wrapped addition is still commutative and cancels: subtracting `intB` back recovers `intA`. */
  lemma {:induction false} SumCancels(intA: Int32, intB: Int32)
    ensures Sum(intA, intB) == Sum(intB, intA)
    ensures Wrap32(Sum(intA, intB) - intB) == intA
  {
  }

  // ---------------------------------------------------- PrimeNumberDecomposition

  /**
    `PrimeNumberDecomposition`: trial division of the `int64` request number,
    sending each prime factor as it is found. `Send` errors are ignored and
    the handler always returns nil.
   */
  method PrimeNumberDecomposition(n: Int64) returns (r: Run<Int64>)
    ensures r.outcome == Done
    ensures r.sent == [] <==> n <= 1
    ensures n > 1 ==> Product(r.sent) == n
    ensures forall i :: 0 <= i < |r.sent| ==> IsPrime(r.sent[i])
    ensures NonDecreasing(r.sent)
  {
    var number: Int64 := n;
    var divisor: Int64 := 2;
    var sent: seq<Int64> := [];
    while number > 1
      invariant n <= 1 ==> number == n && sent == []
      invariant n > 1 ==> number >= 1
      invariant divisor >= 2
      invariant number > 1 ==> divisor <= number
      invariant Product(sent) * number == n
      invariant NoDivisorBelow(number, divisor)
      invariant forall i :: 0 <= i < |sent| ==> IsPrime(sent[i]) && sent[i] <= divisor
      invariant NonDecreasing(sent)
      decreases number, number - divisor
    {
      if number % divisor == 0 {
        DivisorIsPrime(number, divisor);
        ProductAppend(sent, divisor);
        ghost var old_sent := sent;
        sent := sent + [divisor];
        var next := number / divisor;
        QuotientKeepsNoDivisorBelow(number, divisor);
        ExtendFactors(Product(old_sent), divisor, next, number);
        number := next;
      } else {
        assert Divides(number, number);
        divisor := divisor + 1;
      }
    }
    r := Run(sent, Done);
  }

  /** Moving a factor `d` of `number` from the remaining number into the product keeps the product with the quotient unchanged, and shrinks the number. */
  lemma {:induction false} ExtendFactors(p: int, d: int, q: int, number: int)
    requires d >= 2 && number > 1 && Divides(d, number) && q == number / d
    ensures (p * d) * q == p * number
    ensures 1 <= q < number
  {
  }

  /** The first divisor trial division finds is prime: every smaller candidate was ruled out. */
  lemma {:induction false} DivisorIsPrime(number: int, divisor: int)
    requires number > 1 && divisor >= 2
    requires NoDivisorBelow(number, divisor) && Divides(divisor, number)
    ensures IsPrime(divisor)
  {
    forall d | 2 <= d < divisor
      ensures !Divides(d, divisor)
    {
      if Divides(d, divisor) {
        DividesTrans(d, divisor, number);
      }
    }
  }

  /** Dividing out `divisor` keeps every number below `divisor` a non-divisor, and the quotient, if above 1, is at least `divisor`. */
  lemma {:induction false} QuotientKeepsNoDivisorBelow(number: int, divisor: int)
    requires number > 1 && divisor >= 2
    requires NoDivisorBelow(number, divisor) && Divides(divisor, number)
    ensures NoDivisorBelow(number / divisor, divisor)
    ensures number / divisor > 1 ==> divisor <= number / divisor
  {
    var q := number / divisor;
    QuotientDivides(number, divisor);
    forall d | 2 <= d < divisor
      ensures !Divides(d, q)
    {
      if Divides(d, q) {
        DividesTrans(d, q, number);
      }
    }
    if q > 1 {
      assert Divides(q, q);
    }
  }

  // ------------------------------------------------------------ ComputeAverage

  /**
    The integer part of `ComputeAverage`'s reply: the `int32` running sum and
    the count, the two operands of the final float division.
   */
  datatype AverageInputs = AverageInputs(sum: Int32, count: nat)

  /**
    `ComputeAverage`'s receive loop from a state with running `sum` and
    `count`. At end-of-stream it hands exactly one reply to `SendAndClose`,
    whose error `closeErr`, if any, is returned; a failed `Recv` ends the
    handler with no reply.
   */
  function ComputeAverageFrom(inbound: seq<Recv<Int32>>, sum: Int32, count: nat, closeErr: Option<Error>)
    : (r: Run<AverageInputs>)
    ensures |r.sent| == 1 <==> Ending(inbound) == Done
    ensures |r.sent| <= 1
    ensures |r.sent| == 1 ==> r.sent[0].count == count + |Received(inbound)|
  {
    if |inbound| == 0 then Run([], Blocked)
    else match inbound[0]
      case EOF => Run([AverageInputs(sum, count)], CloseOutcome(closeErr))
      case Err(e) => Run([], Failed(e))
      case Msg(number) => ComputeAverageFrom(inbound[1..], Add32(sum, number), count + 1, closeErr)
  }

  /** `ComputeAverage`: the loop starts with `sum = 0` and `count = 0`. */
  function ComputeAverage(inbound: seq<Recv<Int32>>, closeErr: Option<Error>): (r: Run<AverageInputs>)
    ensures |r.sent| <= 1
    ensures |r.sent| == 1 <==> Ending(inbound) == Done
    ensures |r.sent| == 1 ==> r.sent[0] == AverageInputs(Wrap32(MathSum(Received(inbound))), |Received(inbound)|)
  {
    ComputeAverageFromReply(inbound, 0, 0, closeErr);
    ComputeAverageFrom(inbound, 0, 0, closeErr)
  }

  /** The exact (unbounded) sum of a list of numbers. */
  function MathSum(xs: seq<int>): int
  {
    if |xs| == 0 then 0 else xs[0] + MathSum(xs[1..])
  }

  /**
    After the messages of the stream, the reply holds the 32-bit wrap of their
    exact sum and their number; the reply is sent only at end-of-stream, and
    the handler ends as the stream does, or with `SendAndClose`'s error.
   */
  lemma {:induction false} ComputeAverageFromReply(inbound: seq<Recv<Int32>>, sum: Int32, count: nat, closeErr: Option<Error>)
    ensures ComputeAverageFrom(inbound, sum, count, closeErr).sent
         == (if Ending(inbound) == Done
             then [AverageInputs(Wrap32(sum + MathSum(Received(inbound))), count + |Received(inbound)|)]
             else [])
    ensures ComputeAverageFrom(inbound, sum, count, closeErr).outcome
         == (if Ending(inbound) == Done then CloseOutcome(closeErr) else Ending(inbound))
    decreases |inbound|
  {
    if |inbound| > 0 && inbound[0].Msg? {
      var x := inbound[0].value;
      var tail := inbound[1..];
      var rest := Received(tail);
      ComputeAverageFromReply(tail, Add32(sum, x), count + 1, closeErr);
      assert Received(inbound) == [x] + rest;
      SumStep(sum, x, rest);
    }
  }

  /** Folding one more number into the wrapped running sum keeps it the wrap of the exact total. */
  lemma {:induction false} SumStep(sum: Int32, x: Int32, rest: seq<Int32>)
    ensures Wrap32(Add32(sum, x) + MathSum(rest)) == Wrap32(sum + MathSum([x] + rest))
  {
    assert ([x] + rest)[1..] == rest;
    WrapAddLeft(sum + x, MathSum(rest));
  }

  /** The whole handler: one reply of the wrapped sum and the count of all messages received. */
  lemma {:induction false} ComputeAverageReply(inbound: seq<Recv<Int32>>, closeErr: Option<Error>)
    ensures ComputeAverage(inbound, closeErr).sent
         == (if Ending(inbound) == Done
             then [AverageInputs(Wrap32(MathSum(Received(inbound))), |Received(inbound)|)]
             else [])
    ensures ComputeAverage(inbound, closeErr).outcome
         == (if Ending(inbound) == Done then CloseOutcome(closeErr) else Ending(inbound))
  {
    ComputeAverageFromReply(inbound, 0, 0, closeErr);
  }

  /** The client's numbers 3, 5, 9, 54, 23 give sum 94 over count 5, an average of 18.8. */
  lemma ComputeAverageExample()
    ensures ComputeAverage([Msg(3), Msg(5), Msg(9), Msg(54), Msg(23), EOF], None)
         == Run([AverageInputs(94, 5)], Done)
  {
  }

  /** An empty stream is not an error: the reply holds sum 0 over count 0. */
  lemma {:induction false} ComputeAverageEmpty(closeErr: Option<Error>)
    ensures ComputeAverage([EOF], closeErr).sent == [AverageInputs(0, 0)]
  {
  }

  /**
    The `int32` running sum wraps: two large positive numbers give a negative
    sum, so the reply's average has the wrong sign.
   */
  lemma ComputeAverageOverflows()
    ensures ComputeAverage([Msg(INT32_MAX), Msg(1), EOF], None) == Run([AverageInputs(INT32_MIN, 2)], Done)
    ensures MathSum([INT32_MAX, 1]) == INT32_MAX + 1
  {
    var big: seq<Recv<Int32>> := [Msg(INT32_MAX), Msg(1), EOF];
    ReceivedBig();
    var xs: seq<int> := [INT32_MAX, 1];
    assert xs[1..] == [1];
    assert xs[1..][1..] == [];
    assert MathSum(xs[1..]) == 1;
    ComputeAverageReply(big, None);
    assert Wrap32(INT32_MAX + 1) == INT32_MIN;
  }

  /** The two numbers of the overflow example are received, in order, before end-of-stream. */
  lemma ReceivedBig()
    ensures var big: seq<Recv<Int32>> := [Msg(INT32_MAX), Msg(1), EOF];
            Received(big) == [INT32_MAX, 1] && Ending(big) == Done
  {
    var big: seq<Recv<Int32>> := [Msg(INT32_MAX), Msg(1), EOF];
    assert big[1..] == [Msg(1), EOF];
    assert big[1..][1..] == [EOF];
    assert Received(big[1..][1..]) == [];
    assert Received(big[1..]) == [1];
    assert Received(big) == [INT32_MAX] + [1];
    assert Ending(big[1..]) == Ending(big[1..][1..]) == Done;
  }

  /**
    `ComputeAverage` with the running sum kept in `int64` (each number widened
    before it is added): otherwise the same loop.
   */
  function ComputeAverageWideFrom(inbound: seq<Recv<Int32>>, sum: Int64, count: nat, closeErr: Option<Error>)
    : (r: Run<(Int64, nat)>)
    ensures |r.sent| == 1 <==> Ending(inbound) == Done
    ensures |r.sent| <= 1
    ensures |r.sent| == 1 ==> r.sent[0].1 == count + |Received(inbound)|
    decreases |inbound|
  {
    if |inbound| == 0 then Run([], Blocked)
    else match inbound[0]
      case EOF => Run([(sum, count)], CloseOutcome(closeErr))
      case Err(e) => Run([], Failed(e))
      case Msg(number) => ComputeAverageWideFrom(inbound[1..], Wrap64(sum + number), count + 1, closeErr)
  }

  function ComputeAverageWide(inbound: seq<Recv<Int32>>, closeErr: Option<Error>): (r: Run<(Int64, nat)>)
    ensures |r.sent| <= 1
    ensures |r.sent| == 1 <==> Ending(inbound) == Done
    ensures |r.sent| == 1 ==> r.sent[0].1 == |Received(inbound)|
  {
    ComputeAverageWideFrom(inbound, 0, 0, closeErr)
  }

  /** A sum of `int32` values stays within the count times the `int32` bounds. */
  lemma {:induction false} MathSumBounds(xs: seq<Int32>)
    ensures |xs| * INT32_MIN <= MathSum(xs) <= |xs| * INT32_MAX
    decreases |xs|
  {
    if |xs| > 0 {
      MathSumBounds(xs[1..]);
    }
  }

  /**
    With the wide accumulator the sum in the reply is exact for any stream of
    up to 2^32 numbers: no partial sum leaves the `int64` range.
   */
  lemma {:induction false} ComputeAverageWideFromExact(inbound: seq<Recv<Int32>>, sum: Int64, count: nat, closeErr: Option<Error>)
    requires count * INT32_MIN <= sum <= count * INT32_MAX
    requires count + |Received(inbound)| <= TWO_32
    ensures Ending(inbound) == Done ==>
              ComputeAverageWideFrom(inbound, sum, count, closeErr).sent
              == [(sum + MathSum(Received(inbound)), count + |Received(inbound)|)]
    decreases |inbound|
  {
    if |inbound| > 0 && inbound[0].Msg? {
      var x := inbound[0].value;
      var tail := inbound[1..];
      assert Received(inbound) == [x] + Received(tail);
      assert count + 1 <= TWO_32;
      assert Wrap64(sum + x) == sum + x;
      ComputeAverageWideFromExact(tail, sum + x, count + 1, closeErr);
    } else if |inbound| > 0 && inbound[0].EOF? {
      assert Received(inbound) == [];
    }
  }

  /** The corrected handler replies with the exact sum and the count. */
  lemma {:induction false} ComputeAverageWideExact(inbound: seq<Recv<Int32>>, closeErr: Option<Error>)
    requires |Received(inbound)| <= TWO_32
    ensures Ending(inbound) == Done ==>
              ComputeAverageWide(inbound, closeErr).sent == [(MathSum(Received(inbound)), |Received(inbound)|)]
    ensures Ending(inbound) == Done ==>
              var n := |Received(inbound)|;
              n * INT32_MIN <= ComputeAverageWide(inbound, closeErr).sent[0].0 <= n * INT32_MAX
    ensures ComputeAverageWide([Msg(INT32_MAX), Msg(1), EOF], None).sent == [(INT32_MAX + 1, 2)]
  {
    ComputeAverageWideFromExact(inbound, 0, 0, closeErr);
    MathSumBounds(Received(inbound));
    var big: seq<Recv<Int32>> := [Msg(INT32_MAX), Msg(1), EOF];
    ReceivedBig();
    ComputeAverageWideFromExact(big, 0, 0, None);
    var xs: seq<int> := [INT32_MAX, 1];
    assert xs[1..] == [1];
    assert xs[1..][1..] == [];
    assert MathSum(xs[1..]) == 1;
  }

  // --------------------------------------------------------------- FindMaximum

  /**
    The values a running maximum that starts at `best` announces: each value
    that strictly exceeds every earlier one and `best`.
   */
  function Records(xs: seq<Int32>, best: Int32): (r: seq<Int32>)
    ensures |r| <= |xs|
    ensures forall i :: 0 <= i < |r| ==> r[i] > best
    ensures forall i, j :: 0 <= i < j < |r| ==> r[i] < r[j]
    ensures forall v :: v in r ==> v in xs
    decreases |xs|
  {
    if |xs| == 0 then []
    else if xs[0] > best then [xs[0]] + Records(xs[1..], xs[0])
    else Records(xs[1..], best)
  }

  /** `xs[i]` beats `best` and every value before it: the running maximum changes there. */
  predicate IsRecordAt(xs: seq<Int32>, i: int, best: Int32)
    requires 0 <= i < |xs|
  {
    xs[i] > best && forall j :: 0 <= j < i ==> xs[j] < xs[i]
  }

  /** Every position where the running maximum changes has its value announced. */
  lemma {:induction false} RecordsComplete(xs: seq<Int32>, best: Int32)
    ensures forall i :: 0 <= i < |xs| && IsRecordAt(xs, i, best) ==> xs[i] in Records(xs, best)
    decreases |xs|
  {
    if |xs| > 0 {
      var tail := xs[1..];
      var b := if xs[0] > best then xs[0] else best;
      RecordsComplete(tail, b);
      forall i | 0 < i < |xs| && IsRecordAt(xs, i, best)
        ensures xs[i] in Records(xs, best)
      {
        assert IsRecordAt(tail, i - 1, b) by {
          forall j | 0 <= j < i - 1 ensures tail[j] < tail[i - 1] {
            assert tail[j] == xs[j + 1];
          }
        }
      }
    }
  }

  /** Every announced value is the value at a position where the running maximum changes. */
  lemma {:induction false} RecordsSound(xs: seq<Int32>, best: Int32)
    ensures forall v :: v in Records(xs, best) ==> exists i :: 0 <= i < |xs| && xs[i] == v && IsRecordAt(xs, i, best)
    decreases |xs|
  {
    if |xs| > 0 {
      var tail := xs[1..];
      var b := if xs[0] > best then xs[0] else best;
      RecordsSound(tail, b);
      forall v | v in Records(xs, best)
        ensures exists i :: 0 <= i < |xs| && xs[i] == v && IsRecordAt(xs, i, best)
      {
        if xs[0] > best && v == xs[0] {
          assert IsRecordAt(xs, 0, best);
        } else {
          var k :| 0 <= k < |tail| && tail[k] == v && IsRecordAt(tail, k, b);
          assert IsRecordAt(xs, k + 1, best) by {
            forall j | 0 <= j < k + 1 ensures xs[j] < xs[k + 1] {
              if j > 0 {
                assert xs[j] == tail[j - 1];
              }
            }
          }
        }
      }
    }
  }

  /** A value is announced exactly when it is the value at a position where the running maximum changes. */
  lemma {:induction false} RecordsExactly(xs: seq<Int32>, best: Int32)
    ensures forall i :: 0 <= i < |xs| && IsRecordAt(xs, i, best) ==> xs[i] in Records(xs, best)
    ensures forall v :: v in Records(xs, best) ==> exists i :: 0 <= i < |xs| && xs[i] == v && IsRecordAt(xs, i, best)
  {
    RecordsComplete(xs, best);
    RecordsSound(xs, best);
  }

  /** Nothing is announced exactly when no value exceeds `best`. */
  lemma {:induction false} RecordsEmpty(xs: seq<Int32>, best: Int32)
    ensures Records(xs, best) == [] <==> forall i :: 0 <= i < |xs| ==> xs[i] <= best
    decreases |xs|
  {
    if |xs| > 0 && xs[0] <= best {
      var tail := xs[1..];
      RecordsEmpty(tail, best);
      assert forall i :: 0 < i < |xs| ==> xs[i] == tail[i - 1];
    }
  }

  /** The last announced value is the maximum of the values. */
  lemma {:induction false} RecordsLastIsMax(xs: seq<Int32>, best: Int32)
    requires Records(xs, best) != []
    ensures forall i :: 0 <= i < |xs| ==> xs[i] <= Records(xs, best)[|Records(xs, best)| - 1]
    decreases |xs|
  {
    var tail := xs[1..];
    var r := Records(xs, best);
    assert forall i :: 0 < i < |xs| ==> xs[i] == tail[i - 1];
    if xs[0] > best {
      var rest := Records(tail, xs[0]);
      assert r == [xs[0]] + rest;
      if rest == [] {
        RecordsEmpty(tail, xs[0]);
      } else {
        RecordsLastIsMax(tail, xs[0]);
        assert r[|r| - 1] == rest[|rest| - 1];
      }
    } else {
      RecordsLastIsMax(tail, best);
    }
  }

  /**
    `FindMaximum`'s receive loop from a state with best-so-far `best`: it sends
    a value only when it strictly exceeds `best`; a failed `Send` or `Recv`
    ends the handler with that error, end-of-stream ends it with nil and
    nothing more sent.
   */
  function FindMaximumFrom(inbound: seq<Recv<Int32>>, best: Int32, fault: SendFault): (r: Run<Int32>)
    ensures |r.sent| <= |Received(inbound)|
    ensures forall i :: 0 <= i < |r.sent| ==> r.sent[i] > best
    decreases |inbound|
  {
    if |inbound| == 0 then Run([], Blocked)
    else match inbound[0]
      case EOF => Run([], Done)
      case Err(e) => Run([], Failed(e))
      case Msg(number) =>
        if number > best then
          if FailsNow(fault) then Run([number], Failed(fault.error))
          else
            var rest := FindMaximumFrom(inbound[1..], number, AfterSend(fault));
            Run([number] + rest.sent, rest.outcome)
        else FindMaximumFrom(inbound[1..], best, fault)
  }

  /** `FindMaximum`: the best-so-far starts at 0. */
  function FindMaximum(inbound: seq<Recv<Int32>>, fault: SendFault): (r: Run<Int32>)
    ensures |r.sent| <= |Received(inbound)|
    ensures forall i :: 0 <= i < |r.sent| ==> r.sent[i] > 0
  {
    FindMaximumFrom(inbound, 0, fault)
  }

  /**
    Without send failures the handler sends exactly the running-maximum
    changes of the received values and ends as the stream does; a failing
    `Send` cuts that run short right after the failing call.
   */
  lemma {:induction false} FindMaximumFromSends(inbound: seq<Recv<Int32>>, best: Int32, fault: SendFault)
    ensures FindMaximumFrom(inbound, best, fault)
         == WithSendFault(Run(Records(Received(inbound), best), Ending(inbound)), fault)
    decreases |inbound|
  {
    if |inbound| > 0 && inbound[0].Msg? {
      var x := inbound[0].value;
      var tail := inbound[1..];
      assert Received(inbound) == [x] + Received(tail);
      assert Received(inbound)[1..] == Received(tail);
      if x > best {
        if !FailsNow(fault) {
          FindMaximumFromSends(tail, x, AfterSend(fault));
          WithSendFaultCons(x, Run(Records(Received(tail), x), Ending(tail)), fault);
        }
      } else {
        FindMaximumFromSends(tail, best, fault);
      }
    }
  }

  /** The handler sends the running-maximum changes over a best-so-far of 0, as a strictly increasing sequence of received values. */
  lemma {:induction false} FindMaximumSends(inbound: seq<Recv<Int32>>, fault: SendFault)
    ensures FindMaximum(inbound, fault) == WithSendFault(Run(Records(Received(inbound), 0), Ending(inbound)), fault)
    ensures var s := FindMaximum(inbound, fault).sent;
            (forall i :: 0 <= i < |s| ==> s[i] > 0) && (forall i, j :: 0 <= i < j < |s| ==> s[i] < s[j])
    ensures forall v :: v in FindMaximum(inbound, fault).sent ==> v in Received(inbound)
  {
    FindMaximumFromSends(inbound, 0, fault);
  }

  /**
    On a stream that ends normally and with no failed `Send`: the last value
    sent is the maximum of the received values when that maximum is positive,
    and nothing at all is sent when every value is at most 0.
   */
  lemma {:induction false} FindMaximumAtEnd(inbound: seq<Recv<Int32>>)
    requires Ending(inbound) == Done
    ensures var r := FindMaximum(inbound, Never);
            var xs := Received(inbound);
            && r.outcome == Done
            && (r.sent == [] <==> forall i :: 0 <= i < |xs| ==> xs[i] <= 0)
            && (r.sent != [] ==> r.sent[|r.sent| - 1] in xs && forall i :: 0 <= i < |xs| ==> xs[i] <= r.sent[|r.sent| - 1])
  {
    var xs := Received(inbound);
    var sent := Records(xs, 0);
    assert FindMaximum(inbound, Never) == Run(sent, Done) by {
      FindMaximumFromSends(inbound, 0, Never);
    }
    assert sent == [] <==> forall i :: 0 <= i < |xs| ==> xs[i] <= 0 by {
      RecordsEmpty(xs, 0);
    }
    if sent != [] {
      assert forall i :: 0 <= i < |xs| ==> xs[i] <= sent[|sent| - 1] by {
        RecordsLastIsMax(xs, 0);
      }
      assert sent[|sent| - 1] in sent;
    }
  }

  /** The client's numbers 1, 5, 3, 6, 2, 20 give the replies 1, 5, 6, 20. */
  lemma FindMaximumExample()
    ensures FindMaximum([Msg(1), Msg(5), Msg(3), Msg(6), Msg(2), Msg(20), EOF], Never) == Run([1, 5, 6, 20], Done)
  {
  }
}

=== FILE: gonum.dfy ===
/**
  The Go numeric behaviour the handlers rely on: fixed-width signed integers
  with two's-complement wrap-around on overflow, and `strconv.Itoa`.
 */
module GoNum {

  const TWO_32: int := 0x1_0000_0000
  const INT32_MIN: int := -0x8000_0000
  const INT32_MAX: int := 0x7fff_ffff
  const INT64_MIN: int := -0x8000_0000_0000_0000
  const INT64_MAX: int := 0x7fff_ffff_ffff_ffff

  /** Go `int32`. */
  type Int32 = x: int | -0x8000_0000 <= x <= 0x7fff_ffff

  /** Go `int64`. */
  type Int64 = x: int | -0x8000_0000_0000_0000 <= x <= 0x7fff_ffff_ffff_ffff

  /** `a` and `b` agree modulo 2^32, that is, as 32-bit patterns. */
  predicate Congruent32(a: int, b: int)
  {
    (a - b) % TWO_32 == 0
  }

  /** The `int32` that an exact result `x` wraps to: the one congruent to it modulo 2^32. */
  function Wrap32(x: int): (r: Int32)
    ensures Congruent32(r, x)
    ensures INT32_MIN <= x <= INT32_MAX ==> r == x
  {
    var r := (x - INT32_MIN) % TWO_32 + INT32_MIN;
    assert r - x == (x - INT32_MIN) % TWO_32 - (x - INT32_MIN);
    r
  }

  /** The `int64` that an exact result `x` wraps to. */
  function Wrap64(x: int): (r: Int64)
    ensures (r - x) % (2 * 0x8000_0000_0000_0000) == 0
    ensures INT64_MIN <= x <= INT64_MAX ==> r == x
  {
    var m := 2 * 0x8000_0000_0000_0000;
    var r := (x - INT64_MIN) % m + INT64_MIN;
    assert r - x == (x - INT64_MIN) % m - (x - INT64_MIN);
    r
  }

  /** Go's `a + b` on two `int32` operands. */
  function Add32(a: Int32, b: Int32): (r: Int32)
    ensures INT32_MIN <= a + b <= INT32_MAX ==> r == a + b
    ensures Congruent32(r, a + b)
    ensures a + b > INT32_MAX ==> r == a + b - TWO_32
    ensures a + b < INT32_MIN ==> r == a + b + TWO_32
  {
    Wrap32(a + b)
  }

  /** Adding to an already wrapped value wraps to the same result as adding first. */
  lemma {:induction false} WrapAddLeft(x: int, y: int)
    ensures Wrap32(Wrap32(x) + y) == Wrap32(x + y)
  {
  }

  /** The character of one decimal digit. */
  function DigitChar(d: nat): (c: char)
    requires d < 10
    ensures '0' <= c <= '9'
  {
    (48 + d) as char
  }

  /** The value of one decimal digit character. */
  function DigitValue(c: char): (d: nat)
    requires '0' <= c <= '9'
    ensures d < 10 && DigitChar(d) == c
  {
    (c as int - 48) as nat
  }

  predicate IsDecimal(s: string)
  {
    forall k :: 0 <= k < |s| ==> '0' <= s[k] <= '9'
  }

  /** `strconv.Itoa` on a non-negative value: its decimal digits, most significant first. */
  function Itoa(n: nat): (s: string)
    ensures |s| >= 1 && IsDecimal(s)
    ensures n > 0 ==> s[0] != '0'
    ensures n < 10 <==> |s| == 1
    decreases n
  {
    if n < 10 then [DigitChar(n)] else Itoa(n / 10) + [DigitChar(n % 10)]
  }

  /** Reading a string of decimal digits back as a number. */
  function Atoi(s: string): nat
    requires IsDecimal(s)
    decreases |s|
  {
    if |s| == 0 then 0 else Atoi(s[..|s| - 1]) * 10 + DigitValue(s[|s| - 1])
  }

  /** `Itoa` loses nothing: its digits read back to the number written. */
  lemma {:induction false} AtoiItoa(n: nat)
    ensures Atoi(Itoa(n)) == n
    decreases n
  {
    if n >= 10 {
      var s := Itoa(n);
      assert s[..|s| - 1] == Itoa(n / 10);
      AtoiItoa(n / 10);
    }
  }

  /** Different numbers have different decimal forms. */
  lemma {:induction false} ItoaInjective(m: nat, n: nat)
    requires Itoa(m) == Itoa(n)
    ensures m == n
  {
    AtoiItoa(m);
    AtoiItoa(n);
  }
}

=== FILE: greet.dfy ===
/**
  The handlers of the greet service (src/greet/greet_server/server.go): a
  unary greeting, a server-streaming tenfold greeting, a client-streaming
  concatenation and a bidirectional greeting per request.
 */
module Greet {
  import opened Rpc
  import GoNum

  datatype Greeting = Greeting(firstName: string)

  /** Every greet request carries a greeting, which protobuf leaves absent when unset. */
  datatype GreetRequest = GreetRequest(greeting: Option<Greeting>)

  /** `req.GetGreeting().GetFirstName()`: protobuf getters read an absent greeting as an empty name. */
  function FirstName(req: GreetRequest): (name: string)
    ensures req.greeting.None? ==> name == ""
    ensures req.greeting.Some? ==> name == req.greeting.value.firstName
  {
    match req.greeting
    case None => ""
    case Some(g) => g.firstName
  }

  // --------------------------------------------------------------- Greet

  /** `Greet`: "Hello", one space, then the first name. */
  function Greet(req: GreetRequest): (result: string)
    ensures |result| == 6 + |FirstName(req)|
    ensures result[..6] == "Hello " && result[6..] == FirstName(req)
  {
    "Hello " + FirstName(req)
  }

  /** The name a `Greet` result greets: what follows "Hello ". */
  function GreetedName(result: string): string
    requires |result| >= 6
  {
    result[6..]
  }

  /** `Greet` loses nothing: the name reads back off the greeting, so different names get different greetings. */
  lemma {:induction false} GreetRoundTrip(a: GreetRequest, b: GreetRequest)
    ensures GreetedName(Greet(a)) == FirstName(a)
    ensures Greet(a) == Greet(b) <==> FirstName(a) == FirstName(b)
  {
  }

  // ----------------------------------------------------------- GreetManyTimes

  /**
    `GreetManyTimes`: ten responses, the i-th being the unary greeting followed
    by " number " and i in decimal. `Send` errors are ignored and the handler
    always returns nil; the one-second pause between sends is not modelled.
   */
  method GreetManyTimes(req: GreetRequest) returns (r: Run<string>)
    ensures r.outcome == Done
    ensures |r.sent| == 10
    ensures forall i :: 0 <= i < 10 ==> r.sent[i] == Greet(req) + " number " + GoNum.Itoa(i)
  {
    var firstname := FirstName(req);
    var sent: seq<string> := [];
    var i := 0;
    while i < 10
      invariant 0 <= i <= 10
      invariant |sent| == i
      invariant forall j :: 0 <= j < i ==> sent[j] == "Hello " + firstname + " number " + GoNum.Itoa(j)
    {
      var result := "Hello " + firstname + " number " + GoNum.Itoa(i);
      sent := sent + [result];
      i := i + 1;
    }
    r := Run(sent, Done);
  }

  /** The ten responses of `GreetManyTimes` are pairwise different: each carries its own index. */
  lemma {:induction false} ManyTimesLinesDistinct(req: GreetRequest, i: nat, j: nat)
    requires i != j
    ensures Greet(req) + " number " + GoNum.Itoa(i) != Greet(req) + " number " + GoNum.Itoa(j)
  {
    var p := Greet(req) + " number ";
    if p + GoNum.Itoa(i) == p + GoNum.Itoa(j) {
      assert (p + GoNum.Itoa(i))[|p|..] == GoNum.Itoa(i);
      assert (p + GoNum.Itoa(j))[|p|..] == GoNum.Itoa(j);
      GoNum.ItoaInjective(i, j);
    }
  }

  // ---------------------------------------------------------------- LongGreet

  /** What `LongGreet` appends for one request: "Hello", the name and "!", with no space. */
  function LongGreetPiece(req: GreetRequest): (piece: string)
    ensures |piece| == 6 + |FirstName(req)|
  {
    "Hello" + FirstName(req) + "!"
  }

  /** A piece is "Hello", the name, then "!": the name reads back off it, so pieces are equal exactly when names are. */
  lemma {:induction false} LongGreetPieceParts(a: GreetRequest, b: GreetRequest)
    ensures var p := LongGreetPiece(a);
            p[..5] == "Hello" && p[5..|p| - 1] == FirstName(a) && p[|p| - 1] == '!'
    ensures LongGreetPiece(a) == LongGreetPiece(b) <==> FirstName(a) == FirstName(b)
  {
  }

  /** Reference definition: the pieces of all requests joined in order. */
  function JoinPieces(reqs: seq<GreetRequest>): string
  {
    if |reqs| == 0 then "" else JoinPieces(reqs[..|reqs| - 1]) + LongGreetPiece(reqs[|reqs| - 1])
  }

  /**
    `LongGreet`'s receive loop from a state with accumulated `result`: each
    request appends its piece; at end-of-stream the result goes to
    `SendAndClose`, whose error `closeErr`, if any, is returned; a failed
    `Recv` ends the handler with no reply.
   */
  function LongGreetFrom(inbound: seq<Recv<GreetRequest>>, result: string, closeErr: Option<Error>): (r: Run<string>)
    ensures |r.sent| <= 1
    ensures |r.sent| == 1 <==> Ending(inbound) == Done
    ensures |r.sent| == 1 ==> result <= r.sent[0]
    decreases |inbound|
  {
    if |inbound| == 0 then Run([], Blocked)
    else match inbound[0]
      case EOF => Run([result], CloseOutcome(closeErr))
      case Err(e) => Run([], Failed(e))
      case Msg(req) => LongGreetFrom(inbound[1..], result + LongGreetPiece(req), closeErr)
  }

  /** `LongGreet`: the result starts empty. */
  function LongGreet(inbound: seq<Recv<GreetRequest>>, closeErr: Option<Error>): (r: Run<string>)
    ensures |r.sent| <= 1
    ensures |r.sent| == 1 <==> Ending(inbound) == Done
    ensures |r.sent| == 1 ==> r.sent[0] == JoinPieces(Received(inbound))
  {
    LongGreetFromReply(inbound, "", closeErr);
    assert "" + JoinPieces(Received(inbound)) == JoinPieces(Received(inbound));
    LongGreetFrom(inbound, "", closeErr)
  }

  /** Each `LongGreet` step only appends: the result before a request is a prefix of the result after it. */
  lemma {:induction false} LongGreetAppendOnly(reqs: seq<GreetRequest>, req: GreetRequest)
    ensures JoinPieces(reqs + [req]) == JoinPieces(reqs) + LongGreetPiece(req)
    ensures JoinPieces(reqs) <= JoinPieces(reqs + [req])
  {
  }

  /** Joining a first request's piece in front of the others' joined pieces joins them all. */
  lemma {:induction false} JoinPiecesCons(req: GreetRequest, reqs: seq<GreetRequest>)
    ensures JoinPieces([req] + reqs) == LongGreetPiece(req) + JoinPieces(reqs)
    decreases |reqs|
  {
    if |reqs| == 0 {
      assert [req] + reqs == [] + [req];
    } else {
      var init, last := reqs[..|reqs| - 1], reqs[|reqs| - 1];
      assert ([req] + reqs)[..|reqs|] == [req] + init;
      calc {
        JoinPieces([req] + reqs);
        JoinPieces([req] + init) + LongGreetPiece(last);
        { JoinPiecesCons(req, init); }
        (LongGreetPiece(req) + JoinPieces(init)) + LongGreetPiece(last);
        LongGreetPiece(req) + (JoinPieces(init) + LongGreetPiece(last));
        LongGreetPiece(req) + JoinPieces(reqs);
      }
    }
  }

  /**
    `LongGreet` sends exactly one reply, and only at end-of-stream: the pieces
    of all received requests joined in order, after what was accumulated.
   */
  lemma {:induction false} LongGreetFromReply(inbound: seq<Recv<GreetRequest>>, result: string, closeErr: Option<Error>)
    ensures LongGreetFrom(inbound, result, closeErr).sent
         == (if Ending(inbound) == Done then [result + JoinPieces(Received(inbound))] else [])
    ensures LongGreetFrom(inbound, result, closeErr).outcome
         == (if Ending(inbound) != Done then Ending(inbound)
             else CloseOutcome(closeErr))
    decreases |inbound|
  {
    if |inbound| > 0 && inbound[0].Msg? {
      var req := inbound[0].value;
      var tail := inbound[1..];
      var next := result + LongGreetPiece(req);
      assert LongGreetFrom(inbound, result, closeErr) == LongGreetFrom(tail, next, closeErr);
      assert Ending(inbound) == Ending(tail);
      assert Received(inbound) == [req] + Received(tail);
      LongGreetFromReply(tail, next, closeErr);
      assert next + JoinPieces(Received(tail)) == result + JoinPieces(Received(inbound)) by {
        JoinPiecesCons(req, Received(tail));
        assert next + JoinPieces(Received(tail)) == result + (LongGreetPiece(req) + JoinPieces(Received(tail)));
      }
    } else if |inbound| > 0 && inbound[0].EOF? {
      assert Received(inbound) == [];
      assert result + JoinPieces([]) == result;
    }
  }

  /** The whole handler: the reply is the in-order join of the pieces of every received request. */
  lemma {:induction false} LongGreetReply(inbound: seq<Recv<GreetRequest>>, closeErr: Option<Error>)
    ensures LongGreet(inbound, closeErr).sent
         == (if Ending(inbound) == Done then [JoinPieces(Received(inbound))] else [])
    ensures LongGreet(inbound, closeErr).outcome
         == (if Ending(inbound) != Done then Ending(inbound)
             else CloseOutcome(closeErr))
  {
    LongGreetFromReply(inbound, "", closeErr);
    assert "" + JoinPieces(Received(inbound)) == JoinPieces(Received(inbound));
  }

  /** An empty stream is answered with the empty string. */
  lemma LongGreetEmpty()
    ensures LongGreet([EOF], None) == Run([""], Done)
  {
  }

  /** A request greeting `name`. */
  function Named(name: string): GreetRequest
  {
    GreetRequest(Some(Greeting(name)))
  }

  /** The five requests the greet client streams to `LongGreet` and to `GreetEveryone`. */
  function ClientRequests(): seq<GreetRequest>
  {
    [Named("Chris"), Named("Sieg"), Named("Luna"), Named("Liv"), Named("Bob")]
  }

  /** The client's stream: its five requests, then end-of-stream. */
  function ClientStream(): seq<Recv<GreetRequest>>
  {
    [Msg(Named("Chris")), Msg(Named("Sieg")), Msg(Named("Luna")), Msg(Named("Liv")), Msg(Named("Bob")), EOF]
  }

  /** The handler receives all five client requests, then end-of-stream. */
  lemma ClientStreamReceived()
    ensures Received(ClientStream()) == ClientRequests()
    ensures Ending(ClientStream()) == Done
  {
    var t5: seq<Recv<GreetRequest>> := [EOF];
    var t4 := [Msg(Named("Bob"))] + t5;
    var t3 := [Msg(Named("Liv"))] + t4;
    var t2 := [Msg(Named("Luna"))] + t3;
    var t1 := [Msg(Named("Sieg"))] + t2;
    var inbound := [Msg(Named("Chris"))] + t1;
    assert Received(t5) == [] && Ending(t5) == Done;
    assert Received(t4) == [Named("Bob")] && Ending(t4) == Done by { assert t4[1..] == t5; }
    assert Received(t3) == [Named("Liv"), Named("Bob")] && Ending(t3) == Done by { assert t3[1..] == t4; }
    assert Received(t2) == [Named("Luna"), Named("Liv"), Named("Bob")] && Ending(t2) == Done by {
      assert t2[1..] == t3;
    }
    assert Received(t1) == ClientRequests()[1..] && Ending(t1) == Done by { assert t1[1..] == t2; }
    assert Received(inbound) == ClientRequests() && Ending(inbound) == Done by { assert inbound[1..] == t1; }
    assert inbound == ClientStream();
  }

  /** Joining five requests gives their five pieces, in order. */
  lemma JoinFive(a: GreetRequest, b: GreetRequest, c: GreetRequest, d: GreetRequest, e: GreetRequest)
    ensures JoinPieces([a, b, c, d, e])
         == LongGreetPiece(a) + LongGreetPiece(b) + LongGreetPiece(c) + LongGreetPiece(d) + LongGreetPiece(e)
  {
    var pa, pb, pc, pd, pe := LongGreetPiece(a), LongGreetPiece(b), LongGreetPiece(c), LongGreetPiece(d), LongGreetPiece(e);
    assert JoinPieces([a]) == pa by {
      LongGreetAppendOnly([], a);
      assert [] + [a] == [a];
    }
    assert JoinPieces([a, b]) == pa + pb by {
      LongGreetAppendOnly([a], b);
      assert [a] + [b] == [a, b];
    }
    assert JoinPieces([a, b, c]) == pa + pb + pc by {
      LongGreetAppendOnly([a, b], c);
      assert [a, b] + [c] == [a, b, c];
    }
    assert JoinPieces([a, b, c, d]) == pa + pb + pc + pd by {
      LongGreetAppendOnly([a, b, c], d);
      assert [a, b, c] + [d] == [a, b, c, d];
    }
    LongGreetAppendOnly([a, b, c, d], e);
    assert [a, b, c, d] + [e] == [a, b, c, d, e];
  }

  /** The pieces of the five client requests, joined. */
  lemma ClientRequestsJoined()
    ensures JoinPieces(ClientRequests()) == "HelloChris!" + "HelloSieg!" + "HelloLuna!" + "HelloLiv!" + "HelloBob!"
  {
    JoinFive(Named("Chris"), Named("Sieg"), Named("Luna"), Named("Liv"), Named("Bob"));
    assert LongGreetPiece(Named("Chris")) == "HelloChris!";
    assert LongGreetPiece(Named("Sieg")) == "HelloSieg!";
    assert LongGreetPiece(Named("Luna")) == "HelloLuna!";
    assert LongGreetPiece(Named("Liv")) == "HelloLiv!";
    assert LongGreetPiece(Named("Bob")) == "HelloBob!";
  }

  /** The client's five greetings are joined in order, without separators. */
  lemma LongGreetExample()
    ensures LongGreet(ClientStream(), None)
         == Run(["HelloChris!" + "HelloSieg!" + "HelloLuna!" + "HelloLiv!" + "HelloBob!"], Done)
  {
    ClientStreamReceived();
    ClientRequestsJoined();
    LongGreetReply(ClientStream(), None);
  }

  // ------------------------------------------------------------ GreetEveryone

  /** The response `GreetEveryone` sends for one request: "Hello", the name, "!" and a space. */
  function EveryoneLine(req: GreetRequest): (line: string)
    ensures |line| == 7 + |FirstName(req)|
  {
    "Hello" + FirstName(req) + "! "
  }

  /** Reference definition: one response per request, in the same order. */
  function EveryoneLines(reqs: seq<GreetRequest>): (lines: seq<string>)
    ensures |lines| == |reqs|
    ensures forall i :: 0 <= i < |reqs| ==> lines[i] == EveryoneLine(reqs[i])
  {
    seq(|reqs|, i requires 0 <= i < |reqs| => EveryoneLine(reqs[i]))
  }

  /**
    `GreetEveryone`: answers each request before receiving the next; a failed
    `Send` or `Recv` ends the handler with that error, end-of-stream ends it
    with nil and nothing more sent.
   */
  function GreetEveryone(inbound: seq<Recv<GreetRequest>>, fault: SendFault): (r: Run<string>)
    ensures |r.sent| <= |Received(inbound)|
    decreases |inbound|
  {
    if |inbound| == 0 then Run([], Blocked)
    else match inbound[0]
      case EOF => Run([], Done)
      case Err(e) => Run([], Failed(e))
      case Msg(req) =>
        var result := EveryoneLine(req);
        if FailsNow(fault) then Run([result], Failed(fault.error))
        else
          var rest := GreetEveryone(inbound[1..], AfterSend(fault));
          Run([result] + rest.sent, rest.outcome)
  }

  /**
    Without send failures `GreetEveryone` sends exactly one response per
    received request, in order, and ends as the stream does; a failing `Send`
    cuts that run short right after the failing call.
   */
  lemma {:induction false} GreetEveryoneSends(inbound: seq<Recv<GreetRequest>>, fault: SendFault)
    ensures GreetEveryone(inbound, fault)
         == WithSendFault(Run(EveryoneLines(Received(inbound)), Ending(inbound)), fault)
    decreases |inbound|
  {
    if |inbound| > 0 && inbound[0].Msg? {
      var req := inbound[0].value;
      var tail := inbound[1..];
      assert Received(inbound) == [req] + Received(tail);
      assert EveryoneLines(Received(inbound)) == [EveryoneLine(req)] + EveryoneLines(Received(tail));
      if !FailsNow(fault) {
        GreetEveryoneSends(tail, AfterSend(fault));
        WithSendFaultCons(EveryoneLine(req), Run(EveryoneLines(Received(tail)), Ending(tail)), fault);
      }
    }
  }

  /** The client's five greetings get five responses, in order, and end-of-stream ends the handler with nil. */
  lemma GreetEveryoneExample()
    ensures GreetEveryone(ClientStream(), Never)
         == Run(["HelloChris! ", "HelloSieg! ", "HelloLuna! ", "HelloLiv! ", "HelloBob! "], Done)
  {
    var reqs := ClientRequests();
    var lines := EveryoneLines(reqs);
    var expected := ["HelloChris! ", "HelloSieg! ", "HelloLuna! ", "HelloLiv! ", "HelloBob! "];
    assert lines == expected by {
      assert EveryoneLine(reqs[0]) == expected[0];
      assert EveryoneLine(reqs[1]) == expected[1];
      assert EveryoneLine(reqs[2]) == expected[2];
      assert EveryoneLine(reqs[3]) == expected[3];
      assert EveryoneLine(reqs[4]) == expected[4];
    }
    ClientStreamReceived();
    GreetEveryoneSends(ClientStream(), Never);
  }
}

=== FILE: primes.dfy ===
/** Divisibility, primality and products of factor lists, on positive integers. */
module Primes {

  /** `d` divides `n` without remainder. */
  predicate Divides(d: int, n: int)
    requires d > 0
  {
    n % d == 0
  }

  /** `p` is at least 2 and no number in [2, p) divides it. */
  predicate IsPrime(p: int)
  {
    p >= 2 && forall d :: 2 <= d < p ==> !Divides(d, p)
  }

  /** No number in [2, bound) divides `n`. */
  predicate NoDivisorBelow(n: int, bound: int)
  {
    forall d :: 2 <= d < bound ==> !Divides(d, n)
  }

  /** The product of a list of factors; the empty product is 1. */
  function Product(s: seq<int>): int
  {
    if |s| == 0 then 1 else Product(s[..|s| - 1]) * s[|s| - 1]
  }

  predicate NonDecreasing(s: seq<int>)
  {
    forall i, j :: 0 <= i < j < |s| ==> s[i] <= s[j]
  }

  lemma {:induction false} ProductAppend(s: seq<int>, x: int)
    ensures Product(s + [x]) == Product(s) * x
  {
  }

  /** A positive `d` times a non-zero `m` is at least `d` away from zero. */
  lemma {:induction false} MulAwayFromZero(d: int, m: int)
    requires d > 0
    ensures m >= 1 ==> d * m >= d
    ensures m <= -1 ==> d * m <= -d
  {
    if m >= 1 {
      assert d * m == d + d * (m - 1);
      assert d * (m - 1) >= 0;
    } else if m <= -1 {
      assert d * m == -d + d * (m + 1);
      assert d * (m + 1) <= 0;
    }
  }

  /** A multiple of `d` leaves no remainder: the quotient of `d * k` by `d` can only be `k`. */
  lemma {:induction false} MulDivides(d: int, k: int)
    requires d > 0
    ensures Divides(d, d * k)
  {
    var q, r := (d * k) / d, (d * k) % d;
    assert d * k == d * q + r && 0 <= r < d;
    var m := k - q;
    assert d * m == r by {
      assert d * k - d * q == d * (k - q);
    }
    MulAwayFromZero(d, m);
  }

  /** Divisibility is transitive: a divisor of a divisor of `n` divides `n`. */
  lemma {:induction false} DividesTrans(a: int, b: int, n: int)
    requires a > 0 && b > 0
    requires Divides(a, b) && Divides(b, n)
    ensures Divides(a, n)
  {
    var j := b / a;
    var k := n / b;
    assert b == a * j;
    assert n == b * k;
    assert n == a * (j * k);
    MulDivides(a, j * k);
  }

  /** When `d` divides `n`, the quotient divides `n` too. */
  lemma {:induction false} QuotientDivides(n: int, d: int)
    requires d > 0 && n > 0 && Divides(d, n)
    ensures n / d > 0 && Divides(n / d, n)
  {
    var q := n / d;
    assert n == q * d;
    MulDivides(q, d);
  }
}

=== FILE: rpc.dfy ===
/**
  The sequential view a gRPC server handler has of its streams.

  An inbound stream is the finite list of results its `Recv` calls return, in
  order. A handler run is what the handler passes to `Send` (or
  `SendAndClose`), in order, together with how the handler ends.
 */
module Rpc {

  datatype Option<+T> = None | Some(value: T)

  /** The error value a stream operation returns; its text is never interpreted. */
  type Error = string

  /** The result of one `Recv` call: a request, the end of the stream, or a failure. */
  datatype Recv<+T> = Msg(value: T) | EOF | Err(error: Error)

  /**
    How a handler ends: `Done` when it returns nil, `Failed(e)` when it returns
    (or dies on) the error `e`, `Blocked` when the inbound results ran out
    before an end-of-stream or an error, so the handler still waits in `Recv`.
   */
  datatype Outcome = Done | Failed(error: Error) | Blocked

  /** The messages a handler handed to the outbound stream, and how it ended. */
  datatype Run<+O> = Run(sent: seq<O>, outcome: Outcome)

  /** Which `Send` call of a run fails: none, or call number `index` (counted from 0). */
  datatype SendFault = Never | FailAt(index: nat, error: Error)

  /** True when the next `Send` call is the one that fails. */
  predicate FailsNow(fault: SendFault)
  {
    fault.FailAt? && fault.index == 0
  }

  /** The fault as seen from the `Send` call after a successful one. */
  function AfterSend(fault: SendFault): (next: SendFault)
    requires !FailsNow(fault)
    ensures next.FailAt? <==> fault.FailAt?
    ensures next.FailAt? ==> next.index + 1 == fault.index && next.error == fault.error
  {
    match fault
    case Never => Never
    case FailAt(k, e) => FailAt(k - 1, e)
  }

  /**
    The requests a handler receives before its first non-message `Recv` result.
   */
  function Received<T>(inbound: seq<Recv<T>>): (xs: seq<T>)
    ensures |xs| <= |inbound|
  {
    if |inbound| == 0 || !inbound[0].Msg? then []
    else [inbound[0].value] + Received(inbound[1..])
  }

  /**
    How a receive loop that returns nil at end-of-stream and returns the error
    of a failed `Recv` ends on `inbound`.
   */
  function Ending<T>(inbound: seq<Recv<T>>): (o: Outcome)
  {
    if |inbound| == 0 then Blocked
    else match inbound[0]
      case Msg(_) => Ending(inbound[1..])
      case EOF => Done
      case Err(e) => Failed(e)
  }

  /**
    `Received` is the longest prefix of `inbound` made of messages, and
    `Ending` is decided by the result right after it: blocked when there is
    none, nil at end-of-stream, the error of a failed `Recv`.
   */
  lemma {:induction false} ReceivedThenEnding<T>(inbound: seq<Recv<T>>)
    ensures var xs := Received(inbound);
            && (forall i :: 0 <= i < |xs| ==> inbound[i] == Msg(xs[i]))
            && (|xs| == |inbound| <==> Ending(inbound) == Blocked)
            && (|xs| < |inbound| ==> !inbound[|xs|].Msg?)
            && (|xs| < |inbound| && inbound[|xs|].EOF? ==> Ending(inbound) == Done)
            && (|xs| < |inbound| && inbound[|xs|].Err? ==> Ending(inbound) == Failed(inbound[|xs|].error))
    decreases |inbound|
  {
    if |inbound| > 0 && inbound[0].Msg? {
      var tail := inbound[1..];
      ReceivedThenEnding(tail);
      var xs := Received(inbound);
      assert xs == [inbound[0].value] + Received(tail);
      forall i | 0 <= i < |xs| ensures inbound[i] == Msg(xs[i]) {
        if i > 0 {
          assert inbound[i] == tail[i - 1];
        }
      }
    }
  }

  /**
    The run a handler makes when one of its `Send` calls fails, given the run
    it makes when none does: the handler stops right after the failing call
    and returns that call's error.
   */
  function WithSendFault<O>(run: Run<O>, fault: SendFault): (r: Run<O>)
    ensures r.sent <= run.sent
    ensures fault.FailAt? && fault.index < |run.sent| ==>
              |r.sent| == fault.index + 1 && r.outcome == Failed(fault.error)
    ensures !(fault.FailAt? && fault.index < |run.sent|) ==> r == run
  {
    match fault
    case Never => run
    case FailAt(k, e) => if k < |run.sent| then Run(run.sent[..k + 1], Failed(e)) else run
  }

  /** Sending `m` first, then what `run` sends, under `fault`: either `m`'s call fails, or the rest runs under the shifted fault. */
  lemma {:induction false} WithSendFaultCons<O>(m: O, run: Run<O>, fault: SendFault)
    requires !FailsNow(fault)
    ensures WithSendFault(Run([m] + run.sent, run.outcome), fault)
         == var rest := WithSendFault(run, AfterSend(fault)); Run([m] + rest.sent, rest.outcome)
  {
  }

  /** The result of `SendAndClose`: nil, or its error. */
  function CloseOutcome(closeErr: Option<Error>): (o: Outcome)
    ensures o.Failed? <==> closeErr.Some?
    ensures o.Failed? ==> o.error == closeErr.value
    ensures o != Blocked
  {
    match closeErr
    case None => Done
    case Some(e) => Failed(e)
  }
}
